=== FILE: README.md ===
# Account creation core of the résumé-generator backend, in Dafny

The backend is a Django REST service. Its decision logic sits in three places, all modelled here
as pure functions over immutable values:

- **Account factory**: `UserManager.create_user` and `create_superuser` in `src/core/models.py`.
  This is module `Accounts`. The user table is an abstract store: a map from e-mail to `User`,
  plus the next primary key. The unique e-mail column becomes the store invariant `Accounts.Valid`.
  Its two library collaborators are in module `Auth`: e-mail normalisation, and password
  credentials (`set_password` / `check_password`).
- **Upload path builder**: `PathAndRename` in `src/core/utils.py`. This is module `Uploads`.
  It covers the sub-path check, the extension-preserving random rename and POSIX `os.path.join`.
  The extension is `filename.split('.')[-1]`. It is computed with a real `Split` (module `Text`),
  which is proved equal to "the text after the last `.`".
- **Registration serializer**: `UserSerializer` in `src/users/serializers.py`. This is module
  `Registration`. It validates the submitted fields, then delegates to `create_user`, then
  answers with a representation that has no password.

Every account and registration operation returns the store it leaves behind together with a
`Result`. So "a refusal leaves the store unchanged" is something the contracts state.

Random and library inputs are parameters:

- the password salt;
- the 32-digit hex that `uuid4().hex` would give;
- the password hash function, `Auth.Hasher`.

Where the behaviour comes from the framework, the model follows these rules:

- `normalize_email` lowercases the text after the last `@` (ASCII letters only).
- `set_password(None)` stores an unusable credential, which no candidate password matches.
- The serializer derives field rules from the model:
  - `email`, `first_name`, `last_name` and `password` are required and may not be blank.
  - `email` and the two names are limited to 255 characters (`max_length` on the model columns).
  - `email` gets a uniqueness validator, which compares the submitted text exactly.
  - `photo` is declared explicitly with no options, so it must be submitted. An empty photo
    is stored as no photo.
  - `cellphone` is optional.
  - Keys the serializer does not declare, and the read-only `id`, are ignored.

The uniqueness validator compares the raw e-mail, but `create_user` stores the normalised one.
So an address that differs from a stored one only in the case of its domain passes validation.
It is then refused by the unique constraint when saving. The model reports this as
`Registration.Conflict`, and the store is unchanged.

`create_user` only checks the e-mail (src/core/models.py:15-16). A missing password is not
refused: `Accounts.CreateUser` with no password succeeds and stores an unusable credential.
The registration endpoint still refuses a missing password, because the serializer requires
the field.

A photo whose file name is empty counts as no file. The photo field then uploads and stores
nothing, so the account has no photo.

## Model

| member | source | states |
|---|---|---|
| `Accounts.CreateUser` | src/core/models.py:13-21 | fails exactly when the e-mail is None/empty (MissingEmail) or its normalised form is already stored (DuplicateEmail), and then the store is unchanged; on success the stored e-mail is the normalised input, the new account is added under it with the next id and every other account is untouched, and the credential matches the submitted password exactly when one was given |
| `Accounts.CreateUserKeepsExtraFields` | src/core/models.py:17 | keyword fields passed to `create_user` (names, cellphone, flags) reach the stored account unchanged; a photo is stored exactly when one with a non-empty name was passed |
| `Accounts.CreateUserAppliesDefaults` | src/core/models.py:45-46 | each field not passed takes its default, field by field: active, not staff, not superuser, empty names, no phone, no photo |
| `Accounts.CreateUserStoresPhoto` | src/core/models.py:39-43 | for an uploaded photo with a non-empty name, the name handed to file storage is `Users/<hex>.<ext>`, keeping the original extension |
| `Accounts.CreateUserKeepsOnlyDigest` | src/core/models.py:18 | two passwords with the same digest create identical accounts, so no plaintext is kept |
| `Accounts.CreateUserPreservesValid` | src/core/models.py:35 | creation keeps the store invariant: each e-mail key is the account's own normalised, non-empty e-mail, and ids are distinct |
| `Accounts.EmailsUnique` | src/core/models.py:35 | in a valid store, two accounts with the same e-mail are the same account |
| `Accounts.EmptyStoreValid` | src/core/models.py:35 | the empty user table satisfies the store invariant |
| `Accounts.CreateSuperuser` | src/core/models.py:23-30 | fails exactly when `create_user` would, leaving the store unchanged; on success the new account is staff and superuser, stored under its normalised e-mail with the next id, and every other account is untouched |
| `Accounts.SuperuserIsPromotedPlainUser` | src/core/models.py:25-27 | the superuser is the account `create_user(email, password)` makes with no extras, with both flags set; the resulting store is that of `create_user` with the promoted account in place; the supplied extra fields make no difference |
| `Accounts.CreateSuperuserPreservesValid` | src/core/models.py:23-30 | superuser creation keeps the store invariant |
| `Auth.NormalizeEmail` | src/core/models.py:17 | length is kept; an address without `@` is unchanged; everything up to the last `@` is kept and everything after it is lowercased |
| `Auth.NormalizeEmailIdempotent` | src/core/models.py:17 | normalising an already normalised address changes nothing |
| `Auth.NormalizeEmailLowercases` | src/core/tests.py:29-36 | when nothing before the last `@` is upper-case, the normalised address is the whole address lowercased (so `test@MAIL.COM` becomes `test@mail.com`) |
| `Auth.SetPassword` | src/core/models.py:18 | the credential checks against the password it was made from, exactly when one was given; it accepts another candidate exactly when that candidate hashes to the same digest |
| `Auth.SetPasswordKeepsOnlyDigest` | src/core/models.py:18 | the credential depends on the password only through its digest |
| `Uploads.New` | src/core/utils.py:10-15 | construction fails exactly when the sub-path is None or empty; otherwise it keeps the sub-path and the randomize flag |
| `Uploads.Call` | src/core/utils.py:17-23 | without randomize, a relative name is kept verbatim after the sub-path and its separator (one `/` unless the sub-path is empty or already ends in `/`), and an absolute name replaces it; with randomize and a uuid hex, the path is the sub-path, its separator, then `hex.ext`, and it has the original file's extension; a sub-path such as `Users` is therefore followed by exactly one `/` (`ext` itself may contain `/`, as `split('.')[-1]` of `a.b/c` is `b/c`) |
| `Uploads.JoinRelative` | src/core/utils.py:23 | joining a relative name gives the directory, then one `/` unless the directory is empty or already ends in `/`, then the name unchanged |
| `Uploads.ExtensionAfterLastDot` | src/core/utils.py:19 | the extension is the text after the last `.`, and the whole name when there is no `.` |
| `Uploads.ExtensionOfDotted` | src/core/utils.py:21 | `stem + "." + ext` has extension `ext` for any dot-free `ext` |
| `Uploads.RandomizedIgnoresStem` | src/core/utils.py:18-21 | with randomize, two names with the same extension give the same path: the stem is discarded |
| `Uploads.RandomizedDotless` | src/core/utils.py:19-21 | with randomize, a name without `.` becomes `hex.<whole name>` |
| `Uploads.RandomNameKeepsExtension` | src/core/utils.py:19-23 | joining `hex.ext` (uuid hex) to any directory gives the directory, its separator (one `/` unless the directory is empty or already ends in `/`), then `hex.ext`, and the joined path has extension `ext` |
| `Text.LastPieceAfterLastSep` | src/core/utils.py:19 | `s.split(sep)[-1]` equals the text after the last `sep`, or all of `s` when there is none |
| `Text.JoinSplit` | src/core/utils.py:19 | joining the pieces of `split` with the separator gives the original string back |
| `Text.SplitJoin` | src/core/utils.py:19 | splitting the join of separator-free pieces gives the pieces back |
| `Registration.Register` | src/users/serializers.py:8-25 | succeeds exactly when every field is acceptable and the normalised e-mail is not stored; a refusal (including a password under 6 characters) leaves the store unchanged; on success exactly one account is added under the normalised e-mail with the next id, every other account is untouched, the stored names and cellphone are the submitted ones and a photo is stored exactly when a non-empty one was sent, as `Users/<hex>.<ext>` with the extension of the submitted name; the response is that account's representation, its keys are the readable fields only (no password), the stored credential checks against the submitted password, and the account is active and neither staff nor superuser |
| `Registration.PhotoStoredUnderUsers` | src/users/serializers.py:23-25 | the photo that `create` passes on to `create_user` is stored as `Users/<hex>.<ext>`, keeping the submitted file's extension |
| `Registration.FieldErrorsExactlyUnacceptable` | src/users/serializers.py:12-21 | validation finds no field error exactly when the payload is acceptable field by field; errors are only ever reported on writable fields |
| `Registration.Represent` | src/users/serializers.py:14-21 | the representation has exactly the declared fields minus the write-only password, with the stored id and e-mail |
| `Registration.ShortPasswordReported` | src/users/serializers.py:20 | a non-empty password under 6 characters is rejected with a too-short error on the password field |
| `Registration.ExistingEmailReported` | src/users/tests.py:60-66 | submitting the e-mail of a stored account is rejected with a not-unique error on the e-mail field, and the store is unchanged |
| `Registration.RegisterIgnoresUndeclaredFields` | src/users/serializers.py:14-19 | registration depends only on the writable declared fields of the payload |
| `Registration.ValidationReadsOnlyWritable` | src/users/serializers.py:14-21 | two payloads that agree on the writable fields get the same field errors and pass the same data to `create_user` |
| `Registration.RegisterReadsOnlyWritable` | src/users/serializers.py:14-19 | two payloads that agree on the writable fields register identically |
| `Registration.RegisterIgnoresClientId` | src/users/serializers.py:19 | a client-supplied `id` never changes the outcome; the id comes from the store |
| `Registration.RegisterPreservesValid` | src/users/serializers.py:23-25 | registration keeps the store invariant |

## Left out

- Persistence (`save()`, the `objects` manager, migrations): the table is an abstract map. Ids are handed out in increasing order, like an auto-increment key.
- Password hashing internals: the hash function is a parameter, and so is the salt.
- `normalize_email` beyond lowercasing the domain: the whitespace stripping is not modelled, and only ASCII letters are lowercased.
- `uuid4()`: the random hex is a parameter. The properties that need its shape assume 32 lower-case hex digits.
- `os.path.join` with more than two arguments: not needed here.
- File storage may rewrite the name that the upload path builder returns. It cleans the name (spaces become `_`, and characters outside letters, digits, `-`, `_` and `.` are dropped) and renames on collisions. The model records the name as the builder returns it. The URL that the response shows for the photo is also left out. Both belong to the file-storage collaborator.
- Base64 image decoding and image checks (src/users/serializers.py:10): foreign library. The photo input is the decoded file's name.
- Phone-number parsing (src/core/models.py:38): foreign library. The cellphone is stored as submitted.
- Registration.Register: accepts any submitted cellphone. The real serializer refuses an invalid international phone number with an error on `cellphone`, because it reuses the model field's phone validator, and that validator is foreign library code.
- Registration.Register: accepts values that the framework's built-in field validators would refuse: a malformed e-mail address, text containing a NUL character (`'\0'`) in any character field (email, password, names, cellphone), a password over the 128-character column limit, and the framework's other built-in checks. It also does not trim surrounding whitespace. These validators come from the framework, not from the source.
- Arbitrary keyword arguments to `create_user`: the model uses a record of the profile and permission fields (names, cellphone, photo, `is_active`, `is_staff`, `is_superuser`). Passing `id` or `last_login`, which would set the primary key or the login time, cannot be expressed. Neither can an unknown keyword, which Python rejects with a `TypeError`.
- Views, URLs, admin, and the Skill, Job and Association models: framework configuration, or code that is not part of this model.

=== FILE: accounts.dfy ===
/** The custom user model and its manager (`User`, `UserManager`, src/core/models.py),
    over an abstract user store keyed by e-mail. */
module Accounts {
  import opened Wrappers
  import Text
  import Auth
  import Uploads

  /** A stored account. There is no plaintext password field: only a credential. */
  datatype User = User(
    id: nat,
    email: string,
    password: Auth.Credential,
    firstName: string,
    lastName: string,
    cellphone: Option<string>,
    photo: Option<string>,
    isActive: bool,
    isStaff: bool,
    isSuperuser: bool)

  /** The keyword arguments `create_user` forwards to the model; None means "not passed". */
  datatype ExtraFields = ExtraFields(
    firstName: Option<string>,
    lastName: Option<string>,
    cellphone: Option<string>,
    photo: Option<string>,
    isActive: Option<bool>,
    isStaff: Option<bool>,
    isSuperuser: Option<bool>)

  const NoExtraFields := ExtraFields(None, None, None, None, None, None, None)

  /** The user table: accounts keyed by their (unique) e-mail, and the next primary key. */
  datatype Store = Store(users: map<string, User>, nextId: nat)

  const EmptyStore := Store(map[], 1)

  /** Why account creation fails: a falsy e-mail, or the unique e-mail constraint. */
  datatype AccountError = MissingEmail | DuplicateEmail

  /** The store after an operation, and what the operation returned or raised. */
  datatype Outcome = Outcome(store: Store, result: Result<User, AccountError>)

  /** The builder the photo field is declared with: files go under "Users", renamed at random. */
  const UserPhotos := Uploads.New(Some("Users"), true).value

  /** What the table guarantees: each account sits under its own, normalised, non-empty e-mail,
      and primary keys are distinct and below the next one to be handed out. */
  ghost predicate Valid(s: Store)
  {
    && (forall e :: e in s.users ==>
          && s.users[e].email == e
          && e != ""
          && Auth.NormalizeEmail(e) == e
          && s.users[e].id < s.nextId)
    && (forall e1, e2 :: e1 in s.users && e2 in s.users && e1 != e2 ==>
          s.users[e1].id != s.users[e2].id)
  }

  /** Distinct accounts of a valid store never share an e-mail (a consequence of `Valid`, stated
      for readers; no other proof uses it). */
  lemma EmailsUnique(s: Store, e1: string, e2: string)
    requires Valid(s) && e1 in s.users && e2 in s.users
    requires s.users[e1].email == s.users[e2].email
    ensures e1 == e2
  {
  }

  /** The table starts empty, and so starts valid. */
  lemma EmptyStoreValid()
    ensures Valid(EmptyStore)
  {
  }

  /** `create_user(email, password, **extra_fields)`: refuses a falsy e-mail, stores the
      normalised e-mail, forwards the extra fields (the photo renamed by `UserPhotos` with
      `photoHex` as the random name), and keeps only a salted digest of the password.
      A missing password is not refused: it leaves an unusable credential. */
  function CreateUser(s: Store, email: Option<string>, password: Option<string>, extra: ExtraFields,
                      salt: string, photoHex: string, hasher: Auth.Hasher): (o: Outcome)
    ensures o.result.Failure? <==> Text.Falsy(email) || Auth.NormalizeEmail(email.value) in s.users
    ensures o.result.Failure? ==> o.store == s
    ensures Text.Falsy(email) ==> o.result == Failure(MissingEmail)
    ensures !Text.Falsy(email) && Auth.NormalizeEmail(email.value) in s.users ==>
              o.result == Failure(DuplicateEmail)
    ensures o.result.Success? ==>
              var u := o.result.value;
              && u.email == Auth.NormalizeEmail(email.value)
              && u.email !in s.users
              && o.store.users == s.users[u.email := u]
              && u.id == s.nextId && o.store.nextId == s.nextId + 1
              && (Auth.CheckPassword(u.password, password, hasher) <==> password.Some?)
  {
    if Text.Falsy(email) then Outcome(s, Failure(MissingEmail))
    else
      var normalized := Auth.NormalizeEmail(email.value);
      if normalized in s.users then Outcome(s, Failure(DuplicateEmail))
      else
        // A file with an empty name is falsy, so the field uploads and stores nothing.
        var photo := match extra.photo
                     case None => None
                     case Some(name) =>
                       if name == "" then None else Some(Uploads.Call(UserPhotos, name, photoHex));
        var u := User(
          s.nextId,
          normalized,
          Auth.SetPassword(password, salt, hasher),
          ValueOr(extra.firstName, ""),
          ValueOr(extra.lastName, ""),
          extra.cellphone,
          photo,
          ValueOr(extra.isActive, true),
          ValueOr(extra.isStaff, false),
          ValueOr(extra.isSuperuser, false));
        Outcome(Store(s.users[normalized := u], s.nextId + 1), Success(u))
  }

  /** The profile fields passed to `create_user` are stored as given. */
  lemma CreateUserKeepsExtraFields(s: Store, email: Option<string>, password: Option<string>,
                                   extra: ExtraFields, salt: string, photoHex: string,
                                   hasher: Auth.Hasher)
    requires !Text.Falsy(email) && Auth.NormalizeEmail(email.value) !in s.users
    ensures var u := CreateUser(s, email, password, extra, salt, photoHex, hasher).result.value;
            && (extra.firstName.Some? ==> u.firstName == extra.firstName.value)
            && (extra.lastName.Some? ==> u.lastName == extra.lastName.value)
            && u.cellphone == extra.cellphone
            && (u.photo.Some? <==> extra.photo.Some? && extra.photo.value != "")
            && (extra.isActive.Some? ==> u.isActive == extra.isActive.value)
            && (extra.isStaff.Some? ==> u.isStaff == extra.isStaff.value)
            && (extra.isSuperuser.Some? ==> u.isSuperuser == extra.isSuperuser.value)
  {
  }

  /** Each field not passed takes the model's default: active, neither staff nor superuser,
      empty names, no phone, no photo. */
  lemma CreateUserAppliesDefaults(s: Store, email: Option<string>, password: Option<string>,
                                  extra: ExtraFields, salt: string, photoHex: string,
                                  hasher: Auth.Hasher)
    requires !Text.Falsy(email) && Auth.NormalizeEmail(email.value) !in s.users
    ensures var u := CreateUser(s, email, password, extra, salt, photoHex, hasher).result.value;
            && (extra.isActive.None? ==> u.isActive)
            && (extra.isStaff.None? ==> !u.isStaff)
            && (extra.isSuperuser.None? ==> !u.isSuperuser)
            && (extra.firstName.None? ==> u.firstName == "")
            && (extra.lastName.None? ==> u.lastName == "")
            && (extra.cellphone.None? ==> u.cellphone.None?)
            && (extra.photo.None? ==> u.photo.None?)
  {
  }

  /** An uploaded photo is stored under "Users/" as `<hex>.<ext>`, keeping its extension. */
  lemma CreateUserStoresPhoto(s: Store, email: Option<string>, password: Option<string>,
                              extra: ExtraFields, salt: string, photoHex: string,
                              hasher: Auth.Hasher)
    requires !Text.Falsy(email) && Auth.NormalizeEmail(email.value) !in s.users
    requires extra.photo.Some? && extra.photo.value != "" && Uploads.IsUuidHex(photoHex)
    ensures var u := CreateUser(s, email, password, extra, salt, photoHex, hasher).result.value;
            && u.photo == Some("Users/" + photoHex + "." + Uploads.Extension(extra.photo.value))
            && Uploads.Extension(u.photo.value) == Uploads.Extension(extra.photo.value)
  {
    var name := photoHex + "." + Uploads.Extension(extra.photo.value);
    assert UserPhotos == Uploads.PathAndRename("Users", true);
    assert !Uploads.IsAbsolute(name) by { assert name[0] == photoHex[0]; }
    assert Uploads.Call(UserPhotos, extra.photo.value, photoHex) == "Users" + "/" + name;
    assert "Users" + "/" + name == "Users/" + photoHex + "." + Uploads.Extension(extra.photo.value);
  }

  /** Two passwords with the same digest create identical accounts: only the digest is kept. */
  lemma CreateUserKeepsOnlyDigest(s: Store, email: Option<string>, p1: string, p2: string,
                                  extra: ExtraFields, salt: string, photoHex: string,
                                  hasher: Auth.Hasher)
    requires hasher(salt, p1) == hasher(salt, p2)
    ensures CreateUser(s, email, Some(p1), extra, salt, photoHex, hasher)
         == CreateUser(s, email, Some(p2), extra, salt, photoHex, hasher)
  {
  }

  /** Creating a user keeps the table's guarantees. */
  lemma CreateUserPreservesValid(s: Store, email: Option<string>, password: Option<string>,
                                 extra: ExtraFields, salt: string, photoHex: string,
                                 hasher: Auth.Hasher)
    requires Valid(s)
    ensures Valid(CreateUser(s, email, password, extra, salt, photoHex, hasher).store)
  {
    var o := CreateUser(s, email, password, extra, salt, photoHex, hasher);
    if o.result.Success? {
      Auth.NormalizeEmailIdempotent(email.value);
    }
  }

  /** `create_superuser(email, password, **extra_fields)`: `create_user(email, password)` with
      the extra fields dropped, then the account promoted to staff and superuser. */
  function CreateSuperuser(s: Store, email: Option<string>, password: Option<string>,
                           extra: ExtraFields, salt: string, hasher: Auth.Hasher): (o: Outcome)
    ensures o.result.Failure? <==> Text.Falsy(email) || Auth.NormalizeEmail(email.value) in s.users
    ensures o.result.Failure? ==> o.store == s
    ensures Text.Falsy(email) ==> o.result == Failure(MissingEmail)
    ensures !Text.Falsy(email) && Auth.NormalizeEmail(email.value) in s.users ==>
              o.result == Failure(DuplicateEmail)
    ensures o.result.Success? ==>
              var u := o.result.value;
              && u.isStaff && u.isSuperuser
              && u.email == Auth.NormalizeEmail(email.value)
              && o.store.users == s.users[u.email := u]
              && u.id == s.nextId && o.store.nextId == s.nextId + 1
  {
    // No photo is passed on, so no random file name is ever drawn.
    var created := CreateUser(s, email, password, NoExtraFields, salt, "", hasher);
    match created.result
    case Failure(_) => created
    case Success(u) =>
      var promoted := u.(isStaff := true, isSuperuser := true);
      Outcome(created.store.(users := created.store.users[u.email := promoted]), Success(promoted))
  }

  /** A superuser is exactly the plain account `create_user(email, password)` would make,
      promoted; whatever extra fields were supplied are ignored. */
  lemma SuperuserIsPromotedPlainUser(s: Store, email: Option<string>, password: Option<string>,
                                     extra: ExtraFields, salt: string, hasher: Auth.Hasher)
    ensures var sup := CreateSuperuser(s, email, password, extra, salt, hasher);
            var plain := CreateUser(s, email, password, NoExtraFields, salt, "", hasher);
            && sup.result.Success? == plain.result.Success?
            && (sup.result.Failure? ==> sup == plain)
            && (sup.result.Success? ==>
                  && sup.result.value == plain.result.value.(isStaff := true, isSuperuser := true)
                  && sup.store.users == plain.store.users[sup.result.value.email := sup.result.value]
                  && sup.store.nextId == plain.store.nextId)
            && sup == CreateSuperuser(s, email, password, NoExtraFields, salt, hasher)
  {
  }

  /** Replacing a stored account by one with the same e-mail and id keeps the guarantees. */
  lemma ReplaceKeepsValid(s: Store, u: User)
    requires Valid(s) && u.email in s.users && s.users[u.email].id == u.id
    ensures Valid(s.(users := s.users[u.email := u]))
  {
    var t := s.(users := s.users[u.email := u]);
    forall e1, e2 | e1 in t.users && e2 in t.users && e1 != e2
      ensures t.users[e1].id != t.users[e2].id
    {
      assert t.users[e1].id == s.users[e1].id;
      assert t.users[e2].id == s.users[e2].id;
    }
  }

  /** Creating a superuser keeps the table's guarantees. */
  lemma CreateSuperuserPreservesValid(s: Store, email: Option<string>, password: Option<string>,
                                      extra: ExtraFields, salt: string, hasher: Auth.Hasher)
    requires Valid(s)
    ensures Valid(CreateSuperuser(s, email, password, extra, salt, hasher).store)
  {
    var created := CreateUser(s, email, password, NoExtraFields, salt, "", hasher);
    CreateUserPreservesValid(s, email, password, NoExtraFields, salt, "", hasher);
    if created.result.Success? {
      var u := created.result.value;
      ReplaceKeepsValid(created.store, u.(isStaff := true, isSuperuser := true));
    }
  }
}

=== FILE: auth.dfy ===
/** The two pieces of the authentication library the account factory relies on:
    e-mail normalisation (`BaseUserManager.normalize_email`) and password credentials
    (`set_password` / `check_password`). Both are stated abstractly: the normaliser
    lowercases the domain after the last '@', and hashing is a parameter. */
module Auth {
  import opened Wrappers
  import Text

  /** The e-mail with everything after its last '@' lowercased; unchanged without '@'. */
  function NormalizeEmail(email: string): (r: string)
    ensures |r| == |email|
    ensures '@' !in email ==> r == email
    ensures forall i :: 0 <= i < |email| && email[i] == '@' && '@' !in email[i + 1..] ==>
              r[..i + 1] == email[..i + 1] && r[i + 1..] == Text.LowerAll(email[i + 1..])
  {
    match Text.LastIndexOf(email, '@')
    case None => email
    case Some(at) => email[..at + 1] + Text.LowerAll(email[at + 1..])
  }

  /** Normalising twice changes nothing more: the last '@' stays where it was. */
  lemma NormalizeEmailIdempotent(email: string)
    ensures NormalizeEmail(NormalizeEmail(email)) == NormalizeEmail(email)
  {
    var n := NormalizeEmail(email);
    match Text.LastIndexOf(email, '@')
    case None =>
    case Some(at) =>
      var domain := email[at + 1..];
      assert n[at + 1..] == Text.LowerAll(domain);
      assert '@' !in n[at + 1..] by {
        forall j | 0 <= j < |domain|
          ensures Text.LowerAll(domain)[j] != '@'
        {
          assert domain[j] != '@';
        }
      }
      Text.LastIndexOfAt(n, '@', at);
      Text.LowerAllIdempotent(domain);
      assert n[..at + 1] == email[..at + 1];
  }

  /** When nothing before the last '@' is a capital, normalising is lowercasing the whole address. */
  lemma NormalizeEmailLowercases(email: string, at: nat)
    requires at < |email| && email[at] == '@' && '@' !in email[at + 1..]
    requires forall i :: 0 <= i < at ==> !Text.IsUpper(email[i])
    ensures NormalizeEmail(email) == Text.LowerAll(email)
  {
    Text.LastIndexOfAt(email, '@', at);
    var n := NormalizeEmail(email);
    forall i | 0 <= i < |email|
      ensures n[i] == Text.LowerAll(email)[i]
    {
      if i > at {
        assert n[i] == Text.LowerAll(email[at + 1..])[i - at - 1];
      }
    }
  }

  /** A password hasher: salt and raw password to digest (the library's PBKDF2 stand-in). */
  type Hasher = (string, string) -> string

  /** A stored credential: a salted digest, or the unusable marker `set_password(None)` leaves. */
  datatype Credential = Unusable | Hashed(salt: string, digest: string)

  /** `check_password`: a None candidate or an unusable credential never matches. */
  function CheckPassword(c: Credential, raw: Option<string>, hasher: Hasher): (matches: bool)
  {
    match c
    case Unusable => false
    case Hashed(salt, digest) => raw.Some? && hasher(salt, raw.value) == digest
  }

  /** `set_password`: hash the raw password under `salt`; None yields an unusable credential. */
  function SetPassword(raw: Option<string>, salt: string, hasher: Hasher): (c: Credential)
    ensures CheckPassword(c, raw, hasher) <==> raw.Some?
    ensures forall other: string :: CheckPassword(c, Some(other), hasher) <==>
              raw.Some? && hasher(salt, other) == hasher(salt, raw.value)
  {
    match raw
    case None => Unusable
    case Some(p) => Hashed(salt, hasher(salt, p))
  }

  /** The credential depends on the password only through its digest: no plaintext is kept. */
  lemma SetPasswordKeepsOnlyDigest(p1: string, p2: string, salt: string, hasher: Hasher)
    requires hasher(salt, p1) == hasher(salt, p2)
    ensures SetPassword(Some(p1), salt, hasher) == SetPassword(Some(p2), salt, hasher)
  {
  }
}

=== FILE: registration.dfy ===
/** The registration serializer (`UserSerializer`, src/users/serializers.py): field-level
    validation of a submitted payload, then delegation to `create_user`, then the response
    representation. */
module Registration {
  import opened Wrappers
  import Auth
  import Accounts
  import Uploads

  /** A submitted form: field name to submitted text; an absent key is an omitted field. */
  type Payload = map<string, string>

  /** A value in the response body. */
  datatype Value = Str(text: string) | Number(n: nat) | Null

  /** The response body: field name to value. */
  type Representation = map<string, Value>

  /** The fields the serializer declares. */
  const DeclaredFields: set<string> :=
    {"id", "email", "password", "first_name", "last_name", "photo", "cellphone"}

  /** Fields a client may write: `id` is read-only. */
  const WritableFields: set<string> := DeclaredFields - {"id"}

  /** Fields the response shows: `password` is write-only. */
  const ReadableFields: set<string> := DeclaredFields - {"password"}

  /** `min_length` of the password field. */
  const MinPasswordLength := 6

  /** `max_length` of the e-mail and name columns of the user model. */
  const MaxLength := 255

  /** Why a single field is refused. */
  datatype Reason = Required | Blank | TooShort | TooLong | NotUnique

  /** Why a registration is refused: field errors found by validation, or the unique e-mail
      constraint hit while saving (the submitted e-mail differed from a stored one only in
      the case of its domain). */
  datatype RegistrationError = Invalid(errors: map<string, set<Reason>>) | Conflict

  /** The store after a registration attempt, and the response or the refusal. */
  datatype Outcome = Outcome(store: Accounts.Store, result: Result<Representation, RegistrationError>)

  /** A required field that may not be blank: omitted or empty is refused before other checks. */
  function Presence(p: Payload, field: string): (errors: set<Reason>)
  {
    if field !in p then {Required} else if p[field] == "" then {Blank} else {}
  }

  /** Errors of the `email` field: presence, then its length and uniqueness validators. */
  function EmailErrors(s: Accounts.Store, p: Payload): (errors: set<Reason>)
  {
    if Presence(p, "email") != {} then Presence(p, "email")
    else
      (if |p["email"]| > MaxLength then {TooLong} else {})
      + (if p["email"] in s.users then {NotUnique} else {})
  }

  /** Errors of the `password` field: presence, then `min_length`. */
  function PasswordErrors(p: Payload): (errors: set<Reason>)
  {
    if Presence(p, "password") != {} then Presence(p, "password")
    else if |p["password"]| < MinPasswordLength then {TooShort} else {}
  }

  /** Errors of a name field: presence, then the column's `max_length`. */
  function NameErrors(p: Payload, field: string): (errors: set<Reason>)
  {
    if Presence(p, field) != {} then Presence(p, field)
    else if |p[field]| > MaxLength then {TooLong} else {}
  }

  /** Errors of the `photo` field: declared without options, so it must be submitted. */
  function PhotoErrors(p: Payload): (errors: set<Reason>)
  {
    if "photo" !in p then {Required} else {}
  }

  /** Every field's errors, keeping only the fields that have some. */
  function FieldErrors(s: Accounts.Store, p: Payload): (errors: map<string, set<Reason>>)
  {
    var all := map[
      "email" := EmailErrors(s, p),
      "password" := PasswordErrors(p),
      "first_name" := NameErrors(p, "first_name"),
      "last_name" := NameErrors(p, "last_name"),
      "photo" := PhotoErrors(p)];
    map f | f in all && all[f] != {} :: all[f]
  }

  /** A payload the serializer accepts, stated field by field. */
  predicate Acceptable(s: Accounts.Store, p: Payload)
  {
    && "email" in p && p["email"] != "" && |p["email"]| <= MaxLength && p["email"] !in s.users
    && "password" in p && |p["password"]| >= MinPasswordLength
    && "first_name" in p && p["first_name"] != "" && |p["first_name"]| <= MaxLength
    && "last_name" in p && p["last_name"] != "" && |p["last_name"]| <= MaxLength
    && "photo" in p
  }

  /** Validation finds no error exactly when the payload is acceptable, and it only ever
      reports writable fields other than the optional cellphone. */
  lemma FieldErrorsExactlyUnacceptable(s: Accounts.Store, p: Payload)
    ensures FieldErrors(s, p) == map[] <==> Acceptable(s, p)
    ensures FieldErrors(s, p).Keys <= WritableFields - {"cellphone"}
  {
    var errors := FieldErrors(s, p);
    if !Acceptable(s, p) {
      if EmailErrors(s, p) != {} {
        assert "email" in errors;
      } else if PasswordErrors(p) != {} {
        assert "password" in errors;
      } else if NameErrors(p, "first_name") != {} {
        assert "first_name" in errors;
      } else if NameErrors(p, "last_name") != {} {
        assert "last_name" in errors;
      } else {
        assert "photo" in errors;
      }
    }
  }

  /** The validated data as keyword arguments for `create_user`: names, photo and cellphone;
      the permission flags are not serializer fields, so they are never passed. */
  function ToExtraFields(p: Payload): (extra: Accounts.ExtraFields)
  {
    Accounts.ExtraFields(
      if "first_name" in p then Some(p["first_name"]) else None,
      if "last_name" in p then Some(p["last_name"]) else None,
      if "cellphone" in p then Some(p["cellphone"]) else None,
      if "photo" in p && p["photo"] != "" then Some(p["photo"]) else None,
      None, None, None)
  }

  function OptionalValue(v: Option<string>): (r: Value)
  {
    match v
    case None => Null
    case Some(t) => Str(t)
  }

  /** The response body for a stored account: every readable field, the password never. */
  function Represent(u: Accounts.User): (r: Representation)
    ensures r.Keys == ReadableFields
    ensures "password" !in r
    ensures r["id"] == Number(u.id) && r["email"] == Str(u.email)
  {
    map[
      "id" := Number(u.id),
      "email" := Str(u.email),
      "first_name" := Str(u.firstName),
      "last_name" := Str(u.lastName),
      "photo" := OptionalValue(u.photo),
      "cellphone" := OptionalValue(u.cellphone)]
  }

  /** Registration: validate the payload, and on success create the account through
      `create_user` and answer with its representation. A refusal leaves the store as it was. */
  function Register(s: Accounts.Store, p: Payload, salt: string, photoHex: string,
                    hasher: Auth.Hasher): (o: Outcome)
    ensures o.result.Success? <==>
              Acceptable(s, p) && Auth.NormalizeEmail(p["email"]) !in s.users
    ensures o.result.Failure? ==> o.store == s
    ensures !Acceptable(s, p) ==> o.result == Failure(Invalid(FieldErrors(s, p)))
    ensures Acceptable(s, p) && Auth.NormalizeEmail(p["email"]) in s.users ==>
              o.result == Failure(Conflict)
    ensures "password" in p && |p["password"]| < MinPasswordLength ==>
              o.result.Failure? && o.store == s
    ensures o.result.Success? ==>
              var e := Auth.NormalizeEmail(p["email"]);
              && e in o.store.users
              && o.store.users == s.users[e := o.store.users[e]]
              && o.store.nextId == s.nextId + 1
              && o.store.users[e].email == e
              && o.store.users[e].firstName == p["first_name"]
              && o.store.users[e].lastName == p["last_name"]
              && o.store.users[e].cellphone
                 == (if "cellphone" in p then Some(p["cellphone"]) else None)
              && (o.store.users[e].photo.None? <==> p["photo"] == "")
              && (p["photo"] != "" && Uploads.IsUuidHex(photoHex) ==>
                    o.store.users[e].photo
                    == Some("Users/" + photoHex + "." + Uploads.Extension(p["photo"])))
              && o.result.value == Represent(o.store.users[e])
              && o.result.value.Keys == ReadableFields
              && o.result.value["id"] == Number(s.nextId)
              && Auth.CheckPassword(o.store.users[e].password, Some(p["password"]), hasher)
              && o.store.users[e].isActive
              && !o.store.users[e].isStaff && !o.store.users[e].isSuperuser
  {
    var errors := FieldErrors(s, p);
    FieldErrorsExactlyUnacceptable(s, p);
    if errors != map[] then Outcome(s, Failure(Invalid(errors)))
    else
      var created := Accounts.CreateUser(s, Some(p["email"]), Some(p["password"]), ToExtraFields(p),
                                         salt, photoHex, hasher);
      match created.result
      case Failure(_) => Outcome(s, Failure(Conflict))
      case Success(u) =>
        Accounts.CreateUserKeepsExtraFields(s, Some(p["email"]), Some(p["password"]), ToExtraFields(p),
                                            salt, photoHex, hasher);
        PhotoStoredUnderUsers(s, p, salt, photoHex, hasher);
        Outcome(created.store, Success(Represent(u)))
  }

  /** A non-empty photo accepted by validation is stored as `Users/<hex>.<ext>`. */
  lemma PhotoStoredUnderUsers(s: Accounts.Store, p: Payload, salt: string, photoHex: string,
                              hasher: Auth.Hasher)
    requires "email" in p && p["email"] != "" && Auth.NormalizeEmail(p["email"]) !in s.users
    requires "password" in p && "photo" in p
    ensures var u := Accounts.CreateUser(s, Some(p["email"]), Some(p["password"]), ToExtraFields(p),
                                         salt, photoHex, hasher).result.value;
            p["photo"] != "" && Uploads.IsUuidHex(photoHex) ==>
              u.photo == Some("Users/" + photoHex + "." + Uploads.Extension(p["photo"]))
  {
    if p["photo"] != "" && Uploads.IsUuidHex(photoHex) {
      Accounts.CreateUserStoresPhoto(s, Some(p["email"]), Some(p["password"]), ToExtraFields(p),
                                     salt, photoHex, hasher);
    }
  }

  /** A password shorter than six characters is reported against the password field. */
  lemma ShortPasswordReported(s: Accounts.Store, p: Payload, salt: string, photoHex: string,
                              hasher: Auth.Hasher)
    requires "password" in p && 0 < |p["password"]| < MinPasswordLength
    ensures var o := Register(s, p, salt, photoHex, hasher);
            && o.result.Failure? && o.result.error.Invalid?
            && "password" in o.result.error.errors
            && o.result.error.errors["password"] == {TooShort}
  {
    assert PasswordErrors(p) == {TooShort};
    assert FieldErrors(s, p)["password"] == {TooShort};
  }

  /** Submitting the e-mail of an existing account is refused against the e-mail field. */
  lemma ExistingEmailReported(s: Accounts.Store, p: Payload, salt: string, photoHex: string,
                              hasher: Auth.Hasher)
    requires Accounts.Valid(s)
    requires "email" in p && p["email"] in s.users
    ensures var o := Register(s, p, salt, photoHex, hasher);
            && o.result.Failure? && o.store == s && o.result.error.Invalid?
            && "email" in o.result.error.errors
            && NotUnique in o.result.error.errors["email"]
  {
    assert NotUnique in EmailErrors(s, p);
    assert NotUnique in FieldErrors(s, p)["email"];
  }

  /** Two payloads that agree on every writable field. */
  predicate AgreeOnWritable(p: Payload, q: Payload)
  {
    forall f :: f in WritableFields ==> (f in p <==> f in q) && (f in p ==> p[f] == q[f])
  }

  /** Validation and the data passed on read only writable fields. */
  lemma ValidationReadsOnlyWritable(s: Accounts.Store, p: Payload, q: Payload)
    requires AgreeOnWritable(p, q)
    ensures FieldErrors(s, p) == FieldErrors(s, q)
    ensures ToExtraFields(p) == ToExtraFields(q)
  {
    assert "email" in WritableFields && "password" in WritableFields;
    assert "first_name" in WritableFields && "last_name" in WritableFields;
    assert "photo" in WritableFields && "cellphone" in WritableFields;
    assert EmailErrors(s, p) == EmailErrors(s, q);
    assert PasswordErrors(p) == PasswordErrors(q);
    assert NameErrors(p, "first_name") == NameErrors(q, "first_name");
    assert NameErrors(p, "last_name") == NameErrors(q, "last_name");
    assert PhotoErrors(p) == PhotoErrors(q);
  }

  /** Registration reads only writable fields. */
  lemma RegisterReadsOnlyWritable(s: Accounts.Store, p: Payload, q: Payload, salt: string,
                                  photoHex: string, hasher: Auth.Hasher)
    requires AgreeOnWritable(p, q)
    ensures Register(s, p, salt, photoHex, hasher) == Register(s, q, salt, photoHex, hasher)
  {
    ValidationReadsOnlyWritable(s, p, q);
    FieldErrorsExactlyUnacceptable(s, p);
    assert "email" in WritableFields && "password" in WritableFields;
  }

  /** Only writable declared fields influence registration: a client-supplied `id` and any
      undeclared key are ignored. */
  lemma RegisterIgnoresUndeclaredFields(s: Accounts.Store, p: Payload, salt: string,
                                        photoHex: string, hasher: Auth.Hasher)
    ensures Register(s, p, salt, photoHex, hasher)
         == Register(s, map f | f in p && f in WritableFields :: p[f], salt, photoHex, hasher)
  {
    RegisterReadsOnlyWritable(s, p, map f | f in p && f in WritableFields :: p[f],
                              salt, photoHex, hasher);
  }

  /** In particular the `id` a client submits never matters. */
  lemma RegisterIgnoresClientId(s: Accounts.Store, p: Payload, id: string, salt: string,
                                photoHex: string, hasher: Auth.Hasher)
    ensures Register(s, p["id" := id], salt, photoHex, hasher) == Register(s, p, salt, photoHex, hasher)
  {
    RegisterReadsOnlyWritable(s, p["id" := id], p, salt, photoHex, hasher);
  }

  /** Registration keeps the user table's guarantees. */
  lemma RegisterPreservesValid(s: Accounts.Store, p: Payload, salt: string, photoHex: string,
                               hasher: Auth.Hasher)
    requires Accounts.Valid(s)
    ensures Accounts.Valid(Register(s, p, salt, photoHex, hasher).store)
  {
    if Acceptable(s, p) {
      Accounts.CreateUserPreservesValid(s, Some(p["email"]), Some(p["password"]), ToExtraFields(p),
                                        salt, photoHex, hasher);
    }
  }
}

=== FILE: text.dfy ===
/** Character and string helpers shared by the e-mail normaliser and the upload path builder. */
module Text {
  import opened Wrappers

  /** Python's truthiness of an optional string: None and "" are both falsy. */
  predicate Falsy(s: Option<string>)
  {
    s.None? || s.value == ""
  }

  /** An ASCII capital letter; the model's case mapping covers A-Z only. */
  predicate IsUpper(c: char)
  {
    'A' <= c <= 'Z'
  }

  /** The lower-case form of a character (`str.lower` restricted to ASCII). */
  function Lower(c: char): (d: char)
    ensures !IsUpper(d)
    ensures !IsUpper(c) ==> d == c
    ensures IsUpper(c) ==> 'a' <= d <= 'z'
  {
    if IsUpper(c) then (c as int + 32) as char else c
  }

  /** Every character lowered, position by position. */
  function LowerAll(s: string): (r: string)
    ensures |r| == |s|
    ensures forall i :: 0 <= i < |r| ==> !IsUpper(r[i])
  {
    seq(|s|, i requires 0 <= i < |s| => Lower(s[i]))
  }

  /** Lowering leaves lower-case text alone, so it is idempotent. */
  lemma LowerAllIdempotent(s: string)
    ensures LowerAll(LowerAll(s)) == LowerAll(s)
  {
  }

  /** Position of the last occurrence of `c` in `s`, None when `c` does not occur. */
  function LastIndexOf(s: string, c: char): (r: Option<nat>)
    ensures r.None? <==> c !in s
    ensures r.Some? ==> r.value < |s| && s[r.value] == c && c !in s[r.value + 1..]
  {
    if |s| == 0 then None
    else if s[|s| - 1] == c then Some(|s| - 1)
    else
      var r := LastIndexOf(s[..|s| - 1], c);
      assert r.Some? ==> s[r.value + 1..] == s[..|s| - 1][r.value + 1..] + [s[|s| - 1]];
      assert r.None? ==> s == s[..|s| - 1] + [s[|s| - 1]];
      r
  }

  /** Any occurrence of `c` with no later `c` is the one LastIndexOf reports. */
  lemma LastIndexOfAt(s: string, c: char, i: nat)
    requires i < |s| && s[i] == c && c !in s[i + 1..]
    ensures LastIndexOf(s, c) == Some(i)
  {
  }

  /** `s` cut at every `sep`, as Python's `s.split(sep)`: n separators give n + 1 pieces. */
  function Split(s: string, sep: char): (parts: seq<string>)
    ensures |parts| >= 1
    ensures forall k :: 0 <= k < |parts| ==> sep !in parts[k]
    decreases |s|
  {
    if |s| == 0 then [""]
    else
      var rest := Split(s[1..], sep);
      if s[0] == sep then [""] + rest
      else [[s[0]] + rest[0]] + rest[1..]
  }

  /** The pieces glued back with `sep` between neighbours, as Python's `sep.join(parts)`. */
  function JoinWith(parts: seq<string>, sep: char): (s: string)
    requires |parts| >= 1
  {
    if |parts| == 1 then parts[0] else parts[0] + [sep] + JoinWith(parts[1..], sep)
  }

  /** Joining the pieces of a split gives back the original string. */
  lemma {:induction false} JoinSplit(s: string, sep: char)
    ensures JoinWith(Split(s, sep), sep) == s
    decreases |s|
  {
    if |s| > 0 {
      var rest := Split(s[1..], sep);
      JoinSplit(s[1..], sep);
      if s[0] == sep {
        assert ([""] + rest)[1..] == rest;
      } else if |rest| > 1 {
        var parts := [[s[0]] + rest[0]] + rest[1..];
        assert parts[1..] == rest[1..];
        assert JoinWith(rest, sep) == rest[0] + [sep] + JoinWith(rest[1..], sep);
        assert s == [s[0]] + s[1..];
      } else {
        assert s == [s[0]] + s[1..];
      }
    }
  }

  /** Splitting a separator-free string yields it alone. */
  lemma {:induction false} SplitPlain(a: string, sep: char)
    requires sep !in a
    ensures Split(a, sep) == [a]
    decreases |a|
  {
    if |a| > 0 {
      SplitPlain(a[1..], sep);
      assert [a[0]] + a[1..] == a;
    }
  }

  /** Splitting `a + [sep] + b` with `a` separator-free peels `a` off as the first piece. */
  lemma {:induction false} SplitCons(a: string, b: string, sep: char)
    requires sep !in a
    ensures Split(a + [sep] + b, sep) == [a] + Split(b, sep)
    decreases |a|
  {
    var s := a + [sep] + b;
    if |a| == 0 {
      assert s[1..] == b;
    } else {
      assert s[1..] == a[1..] + [sep] + b;
      SplitCons(a[1..], b, sep);
      assert [a[0]] + a[1..] == a;
    }
  }

  /** Splitting the join of separator-free pieces gives the pieces back. */
  lemma {:induction false} SplitJoin(parts: seq<string>, sep: char)
    requires |parts| >= 1
    requires forall k :: 0 <= k < |parts| ==> sep !in parts[k]
    ensures Split(JoinWith(parts, sep), sep) == parts
    decreases |parts|
  {
    if |parts| == 1 {
      SplitPlain(parts[0], sep);
    } else {
      SplitJoin(parts[1..], sep);
      SplitCons(parts[0], JoinWith(parts[1..], sep), sep);
      assert [parts[0]] + parts[1..] == parts;
    }
  }

  /** The last piece of a join is what follows the join of the others and one separator. */
  lemma {:induction false} JoinWithLast(parts: seq<string>, sep: char)
    requires |parts| >= 2
    ensures JoinWith(parts, sep)
         == JoinWith(parts[..|parts| - 1], sep) + [sep] + parts[|parts| - 1]
    decreases |parts|
  {
    if |parts| > 2 {
      JoinWithLast(parts[1..], sep);
      assert parts[1..][..|parts| - 2] == parts[..|parts| - 1][1..];
    }
  }

  /** The last piece of `s.split(sep)`, as Python's `s.split(sep)[-1]`. */
  function LastPiece(s: string, sep: char): (piece: string)
  {
    var parts := Split(s, sep);
    parts[|parts| - 1]
  }

  /** `s.split(sep)[-1]` is the text after the last `sep`, or all of `s` when there is none. */
  lemma LastPieceAfterLastSep(s: string, sep: char)
    ensures LastPiece(s, sep) == match LastIndexOf(s, sep)
                                 case None => s
                                 case Some(i) => s[i + 1..]
  {
    var parts := Split(s, sep);
    JoinSplit(s, sep);
    if |parts| == 1 {
      assert s == parts[0];
    } else {
      JoinWithLast(parts, sep);
      var head := JoinWith(parts[..|parts| - 1], sep);
      assert s == head + [sep] + parts[|parts| - 1];
      assert s[|head| + 1..] == parts[|parts| - 1];
      LastIndexOfAt(s, sep, |head|);
    }
  }
}

=== FILE: uploads.dfy ===
/** The upload-path builder handed to the photo field (`PathAndRename`, src/core/utils.py). */
module Uploads {
  import opened Wrappers
  import Text

  /** A configured builder: the sub-directory files go under and whether names are randomised. */
  datatype PathAndRename = PathAndRename(path: string, randomize: bool)

  /** Construction fails when no sub-path is given. */
  datatype ConfigError = MissingSubPath

  /** `PathAndRename(sub_path, randomize)`: refuses a None or empty sub-path. */
  function New(subPath: Option<string>, randomize: bool): (r: Result<PathAndRename, ConfigError>)
    ensures r.Failure? <==> Text.Falsy(subPath)
    ensures r.Success? ==> r.value.path == subPath.value && r.value.randomize == randomize
    ensures r.Success? ==> r.value.path != ""
  {
    if Text.Falsy(subPath) then Failure(MissingSubPath)
    else Success(PathAndRename(subPath.value, randomize))
  }

  /** A name is absolute when it starts with '/'. */
  predicate IsAbsolute(name: string)
  {
    |name| > 0 && name[0] == '/'
  }

  /** The separator POSIX join puts after a directory: none when the directory is empty or
      already ends in '/', one '/' otherwise. */
  function Separator(dir: string): (sep: string)
  {
    if dir == [] || dir[|dir| - 1] == '/' then "" else "/"
  }

  /** Two-argument POSIX `os.path.join`: an absolute second part replaces the first; otherwise
      the second part follows the first and its separator. */
  function PathJoin(dir: string, name: string): (path: string)
  {
    if IsAbsolute(name) then name else dir + Separator(dir) + name
  }

  /** `path` names `name` inside `dir`: the directory, its separator, then the name. */
  predicate InDirectory(path: string, dir: string, name: string)
  {
    path == dir + Separator(dir) + name
  }

  /** A relative name follows the directory, with one '/' between unless the directory is empty
      or already ends in '/'. */
  lemma JoinRelative(dir: string, name: string)
    requires !IsAbsolute(name)
    ensures InDirectory(PathJoin(dir, name), dir, name)
    ensures dir != [] ==> PathJoin(dir, name)[..|dir|] == dir
    ensures dir != [] ==> (dir[|dir| - 1] == '/' || PathJoin(dir, name)[|dir|] == '/')
  {
  }

  /** The file-name extension as the source computes it: `filename.split('.')[-1]`. */
  function Extension(filename: string): (ext: string)
    ensures '.' !in ext
  {
    Text.LastPiece(filename, '.')
  }

  /** The extension is the text after the last '.', and the whole name when there is no '.'. */
  lemma ExtensionAfterLastDot(filename: string)
    ensures '.' !in filename ==> Extension(filename) == filename
    ensures forall i :: 0 <= i < |filename| && filename[i] == '.' && '.' !in filename[i + 1..]
              ==> Extension(filename) == filename[i + 1..]
  {
    Text.LastPieceAfterLastSep(filename, '.');
    forall i | 0 <= i < |filename| && filename[i] == '.' && '.' !in filename[i + 1..]
      ensures Extension(filename) == filename[i + 1..]
    {
      Text.LastIndexOfAt(filename, '.', i);
    }
  }

  /** Appending "." and a dot-free extension to any stem makes that the extension. */
  lemma ExtensionOfDotted(stem: string, ext: string)
    requires '.' !in ext
    ensures Extension(stem + "." + ext) == ext
  {
    var name := stem + "." + ext;
    assert name[|stem|] == '.';
    assert name[|stem| + 1..] == ext;
    ExtensionAfterLastDot(name);
  }

  /** What `uuid4().hex` yields: 32 lower-case hexadecimal digits. */
  predicate IsUuidHex(hex: string)
  {
    |hex| == 32 && forall i :: 0 <= i < |hex| ==> hex[i] in "0123456789abcdef"
  }

  /** A name `<hex>.<ext>` built from a uuid hex is relative, so joining appends it to the
      directory after the directory's separator, and the joined path has the extension `ext`. */
  lemma RandomNameKeepsExtension(dir: string, filename: string, hex: string)
    ensures IsUuidHex(hex) ==>
              && InDirectory(PathJoin(dir, hex + "." + Extension(filename)), dir,
                             hex + "." + Extension(filename))
              && Extension(PathJoin(dir, hex + "." + Extension(filename))) == Extension(filename)
  {
    if IsUuidHex(hex) {
      var ext := Extension(filename);
      var name := hex + "." + ext;
      assert name[0] == hex[0];
      JoinRelative(dir, name);
      var path := PathJoin(dir, name);
      assert path == (dir + Separator(dir) + hex) + "." + ext;
      ExtensionOfDotted(path[..|path| - |ext| - 1], ext);
      assert path == path[..|path| - |ext| - 1] + "." + ext;
    }
  }

  /** The final path component chosen for an upload: the original name, or `<hex>.<ext>`. */
  function StoredName(u: PathAndRename, filename: string, hex: string): (name: string)
  {
    if u.randomize then hex + "." + Extension(filename) else filename
  }

  /** `PathAndRename.__call__`: the upload's path, `hex` standing for the `uuid4().hex` drawn.
      A relative name follows the sub-path and its separator verbatim; an absolute one replaces
      it, as `os.path.join` does. A randomised upload is the sub-path and its separator followed
      by `<hex>.<ext>`, and keeps the extension of the original file (`ext` may itself contain
      '/'). Either way a sub-path such as "Users" is followed by exactly one '/'. */
  function Call(u: PathAndRename, filename: string, hex: string): (path: string)
    ensures !u.randomize && !IsAbsolute(filename) ==> InDirectory(path, u.path, filename)
    ensures !u.randomize && IsAbsolute(filename) ==> path == filename
    ensures u.randomize && IsUuidHex(hex) ==>
              && InDirectory(path, u.path, hex + "." + Extension(filename))
              && Extension(path) == Extension(filename)
    ensures u.path != [] && u.path[|u.path| - 1] != '/'
            && ((!u.randomize && !IsAbsolute(filename)) || (u.randomize && IsUuidHex(hex)))
            ==> u.path + "/" <= path
  {
    RandomNameKeepsExtension(u.path, filename, hex);
    var name := StoredName(u, filename, hex);
    assert u.randomize && IsUuidHex(hex) ==> name[0] == hex[0];
    PathJoin(u.path, name)
  }

  /** With randomisation the original name matters only through its extension. */
  lemma RandomizedIgnoresStem(u: PathAndRename, f1: string, f2: string, hex: string)
    requires u.randomize
    requires Extension(f1) == Extension(f2)
    ensures Call(u, f1, hex) == Call(u, f2, hex)
  {
  }

  /** A name without '.' becomes its own extension: `<hex>.<whole name>`. */
  lemma RandomizedDotless(u: PathAndRename, filename: string, hex: string)
    requires u.randomize && '.' !in filename
    ensures Call(u, filename, hex) == PathJoin(u.path, hex + "." + filename)
  {
    ExtensionAfterLastDot(filename);
  }
}

=== FILE: wrappers.dfy ===
/** Absent values and raised errors, as plain data. */
module Wrappers {

  /** An argument that may be Python's None. */
  datatype Option<T> = None | Some(value: T)

  /** What an operation returns, or the error it raises instead. */
  datatype Result<T, E> = Success(value: T) | Failure(error: E)

  /** The value carried by `o`, or `fallback` when there is none: a keyword argument with a default. */
  function ValueOr<T>(o: Option<T>, fallback: T): (v: T)
  {
    if o.Some? then o.value else fallback
  }
}
